=== FILE: README.md ===
# libreant HTTP API: request checking and response shaping

This project models the JSON API blueprint of libreant's web front end
(`webant/api/blueprint_api.py`). The blueprint is a thin layer over the
archive backend ("archivant"), which stores volumes (metadata records) and
their attachments (uploaded files). The model covers what the layer itself
decides:

- how the `metadata` request value is accepted (`receive_metadata`,
  `receive_volume_metadata`);
- the defaults, checks and neighbouring-page offsets of the volume listing
  (`get_volumes`), and the argument strings of its page links;
- how a raised `ApiError` or any other exception becomes a response
  (`apiErrorHandler`, `exceptionHandler`, `make_success_response`);
- which backend exceptions each route turns into 404 or 400 and which fall
  through to the catch-all 500;
- the lifecycle of the temporary file that stages an uploaded attachment
  (`add_attachments`).

Every backend call is a function parameter that returns a `StoreOutcome`:
`Ok(value)`, `NotFound(reason)` (a `NotFoundException`), `ValueErr(reason)`
(a `ValueError`) or `OtherFault` (any other exception). The model says nothing
about what the backend stores. The JSON parser, the file-name sanitizer, the
volume normalization and the file-sending helper are parameters as well.
Python's `int()` on a request argument is represented by its outcome
(`IntArg`). The temporary directory is an explicit `FsState`: the set of
existing temporary paths plus a log of removals. The path `mkstemp` returns is
a parameter that does not name an existing file.

Modules:

- `Wrappers`: `Option` and `Result`.
- `Documents`: JSON values and metadata maps.
- `Responses`: `ApiError`, the raised faults, response bodies and the two
  error handlers.
- `MetadataInput`: metadata acceptance.
- `Storage`: backend outcomes and the `try`/`except` around one backend call.
- `Pagination`: `get_volumes`.
- `QueryString`: the page-link argument strings, both as written and escaped,
  plus a reference reader for them.
- `TempFiles`: temporary files.
- `Attachments`: `add_attachments`, both as written and corrected.
- `Routes`: the other routes, plus a reference table of the expected status
  for each route and backend outcome.

The source is Python 2. Cascade deletes, index consistency, merge-or-replace
updates and per-volume locking belong to the archivant backend and are not
modelled. Three behaviours of the code are easy to miss:

- Only the upper bound of `size` is checked. Negative `from` and `size`
  values are accepted.
- The request's `q` is a unicode string, and the page links are built by
  formatting it into a byte-string template. A query with a non-ASCII
  character (`café`) therefore raises `UnicodeEncodeError` after the search
  has run, and the listing answers 500.
- A failed save of the upload leaks its temporary file. See Findings below.

## Model

| member | source | states |
|---|---|---|
| Responses.SuccessResponse | webant/api/blueprint_api.py:25-28 | a success message whose body code equals the response status, with no Location header |
| Responses.ApiErrorHandler | webant/api/blueprint_api.py:34-43 | the status is always the error's HTTP code; the body code is the application error code when given and the HTTP code otherwise; absent details become `""`; the message is kept |
| Responses.ExceptionHandler | webant/api/blueprint_api.py:52-55 | any exception that is not an `ApiError` yields status 500 with body code 500, message "internal server error" and empty details |
| Responses.Serve | webant/api/blueprint_api.py:34-55 | a returned response passes unchanged; a raised `ApiError` is answered by `apiErrorHandler` for that error (its own HTTP code, code, message and details); every other exception is answered by `apiErrorHandler` for the internal error (500); errors never carry a Location |
| Responses.AbsentDetailsReadAsEmpty | webant/api/blueprint_api.py:39 | an error without details and one with empty details give identical responses |
| Responses.ErrorResponseDistinguishes | webant/api/blueprint_api.py:34-43 | apart from that case (and with the same error code), the error response determines the raised error: equal responses mean equal message and HTTP code, and equal details unless neither error has details to show (none or `""`); this covers errors raised without details |
| MetadataInput.ReceiveMetadata | webant/api/blueprint_api.py:212-223 | accepted exactly when the value parses to a JSON object, or is absent and optional; an absent optional value gives the empty map; the parsed object is returned unchanged; an absent required value is 400 "malformed request" with details "missing 'metadata' in request"; a parse failure is 400 "malformed metadata" with the parser's text as details; a non-object is 400 "malformed metadata" with details "metadata value should be a json object" |
| MetadataInput.AbsentMetadataIsNotParsed | webant/api/blueprint_api.py:212-218 | when the `metadata` value is absent, the outcome does not depend on the JSON parser at all |
| MetadataInput.FirstMissing | webant/api/blueprint_api.py:205-208 | finds no position exactly when every required field is present; otherwise returns the first required field the metadata lacks |
| MetadataInput.ReceiveVolumeMetadata | webant/api/blueprint_api.py:202-209 | succeeds exactly when the required metadata is an object containing `_language`, returning it unchanged; a metadata failure passes through; a missing `_language` is 400 "malformed metadata" whose details name the field |
| Storage.Catch | webant/api/blueprint_api.py:101-106 | one backend call inside a route's `try`: success exactly when the backend succeeds, returning its value; a caught `NotFoundException` raises an `ApiError` 404 and a caught `ValueError` an `ApiError` 400, each with the route's message and the exception text as details; an uncaught exception propagates as a non-`ApiError` fault |
| Storage.CaughtStatus | webant/api/blueprint_api.py:98-107 | a backend exception the route catches answers 404 (not found) or 400 (value error); one it does not catch answers 500 |
| Pagination.PrevOffset | webant/api/blueprint_api.py:75 | the previous-page offset is never negative: it is `from-size` when that is at least 0, and 0 otherwise |
| Pagination.PrevUndoesNext | webant/api/blueprint_api.py:74-75 | for a non-negative offset, going to the next page and then back returns to the same offset |
| Pagination.NextUndoesPrev | webant/api/blueprint_api.py:74-75 | going back and then forward returns to the same offset exactly when the clamp did not apply, that is when `from-size` is not negative |
| Pagination.Page | webant/api/blueprint_api.py:72-80 | a successful listing answers 200 with the total, every hit normalized in order, a next link at `from+size` and a previous link at `from-size` clamped to 0, both with the same `q` and `size` |
| Pagination.GetVolumes | webant/api/blueprint_api.py:58-81 | defaults `q="*:*"`, `from=0`, `size=10`; an unparsable `from` is 400 and takes priority over an unparsable `size`, which is also 400; a size is rejected with 413 exactly when it exceeds the configured maximum (default 50), so the maximum itself is accepted; a parsable request within the bound is answered 200 exactly when the search succeeds and `q` is ASCII, and is otherwise answered 500 (an exception of the search engine, or a non-ASCII `q` that cannot be written into the links after a successful search); on success the search ran on exactly the requested query, offset and size, and the answer is that page |
| QueryString.FormatIntRoundTrip | webant/api/blueprint_api.py:74-75 | every offset or size written into a link reads back as the same integer, negative values included |
| QueryString.PageArgsAsWritten | webant/api/blueprint_api.py:74-75 | the link arguments as built, with `q` unescaped: they exist exactly when `q` is ASCII (otherwise formatting raises and the listing answers 500); when `q` has no reserved character they equal the escaped form (see the next two rows) |
| QueryString.PlainQueryNeedsNoEscaping | webant/api/blueprint_api.py:74-75 | for an ASCII query without reserved characters, such as the default `*:*`, the link as written equals the escaped one and reads back as the same query, offset and size |
| QueryString.ArgsCut | webant/api/blueprint_api.py:74 | whatever the offset and size text, an unescaped query containing `&` does not read back as itself from the link string |
| QueryString.UnescapedQueryIsCut | webant/api/blueprint_api.py:74-75 | as written, an ASCII query containing `&` gives a link, and that link does not read back as the query |
| QueryString.DecodeEncode | webant/api/blueprint_api.py:74 | decoding an escaped query gives back the query, for every string |
| QueryString.EncodedArgsReadBack | webant/api/blueprint_api.py:74-75 | for every query, offset and size, the link string built with the query escaped reads back as exactly that query, offset and size |
| QueryString.PageArgs | webant/api/blueprint_api.py:74-75 | the corrected link arguments, with the query escaped: every link reads back as exactly its query, offset and size |
| TempFiles.Create | webant/api/blueprint_api.py:143 | `mkstemp` adds a path that did not exist to the temporary files and removes nothing |
| TempFiles.Remove | webant/api/blueprint_api.py:158 | `os.remove` of an existing temporary file: the path no longer exists, every other file is kept, and the removal log gains exactly that path |
| TempFiles.CreateThenRemove | webant/api/blueprint_api.py:143-158 | creating a fresh temporary file and removing it restores the set of files and logs exactly one more removal of that path and none of any other |
| Attachments.Info | webant/api/blueprint_api.py:145-149 | the staged file's path, sanitized name and MIME type go to the backend; notes come from the metadata and default to `''` |
| Attachments.Commit | webant/api/blueprint_api.py:152-163 | success exactly when the backend returns a non-empty id list; then 201 with the first id and a Location for it; NotFound is 404 "volume not found"; every other backend outcome, and an empty id list, is 500 |
| Attachments.AddAttachmentsAsWritten | webant/api/blueprint_api.py:137-163 | metadata failures and a missing `file` key are reported before any temporary file exists, leaving the files unchanged; a failed save leaves the temporary file in place; after a successful save the file is removed exactly once whatever outcome the backend returns, and the answer is the one `Commit` gives for that file |
| Attachments.AddAttachments | webant/api/blueprint_api.py:137-163 | the corrected handler leaves no temporary file on any path; it creates a file only after validation and then removes it exactly once; its answer equals the as-written handler's |
| Attachments.SaveFailureLeaksTempFile | webant/api/blueprint_api.py:143-158 | for a validated upload whose save fails, the as-written handler leaves the temporary file and the corrected one does not |
| Routes.AddVolume | webant/api/blueprint_api.py:84-95 | rejected metadata is answered before the backend is consulted; otherwise ValueError is 400 "malformed metadata" with the exception text as details, NotFound and other faults are 500, success is 201 with the new id and a Location header for it |
| Routes.UpdateVolume | webant/api/blueprint_api.py:98-107 | rejected metadata is answered before the backend is consulted; NotFound is 404 "volume not found" and ValueError is 400 "malformed metadata", each with the exception text as details; other faults are 500; success is 201 "volume successfully updated" |
| Routes.GetVolume | webant/api/blueprint_api.py:110-116 | success exactly when the backend finds the volume, returning its document without a Location; NotFound is 404 "volume not found" with the exception text as details; everything else is 500 |
| Routes.DeleteVolume | webant/api/blueprint_api.py:119-125 | success (200) exactly when the backend deletes; NotFound is 404 "volume not found" with the exception text as details; everything else is 500 |
| Routes.GetAttachments | webant/api/blueprint_api.py:128-134 | success exactly when the volume is found and is an object with an `attachments` member, which is returned without a Location; NotFound is 404 "volume not found" with the exception text as details; a volume without that member and every other fault are 500 |
| Routes.GetAttachment | webant/api/blueprint_api.py:166-172 | success exactly when the backend finds the attachment, returning it without a Location; NotFound is 404 "attachment not found" with the backend's text as details; everything else is 500 |
| Routes.DeleteAttachment | webant/api/blueprint_api.py:175-181 | the backend is asked to delete the one-element list of the attachment id; success is 200; NotFound is 404 "attachment not found" with the exception text as details; everything else is 500 |
| Routes.UpdateAttachment | webant/api/blueprint_api.py:184-191 | rejected metadata is answered before the backend is consulted (no required field); ValueError is 400 "malformed request" with the exception text as details; a NotFound is not caught and answers 500 "internal server error"; success is 200 |
| Routes.GetFile | webant/api/blueprint_api.py:194-199 | the file-sending helper's response is returned unchanged; NotFound is 404 "file not found"; everything else is 500 |
| Routes.AddAttachmentsStatus | webant/api/blueprint_api.py:152-163 | for an accepted and saved upload, the status follows the route table (201, 404 for NotFound, 500 otherwise), except that an empty id list from the backend is 500 |

## Left out

- The archive backend (`archivant`: `insert_volume`, `update_volume`, `get_volume`, `delete_volume`, `insert_attachments`, `get_attachment`, `delete_attachments`, `update_attachment`, the search engine's `get_books_querystring`, `Archivant.normalize_volume`) is not part of this model. Each call is represented only by its outcome, except `normalize_volume`. Nothing is claimed about cascades, index consistency or merge-versus-replace updates.
- Pagination.GetVolumes: `Archivant.normalize_volume` is a total function on JSON values, so the model assumes it never raises. If it raised at line 73, the source would answer 500 where the model answers 200.
- Attachments.AddAttachmentsAsWritten: the `finally` at line 158 removes `fileInfo['file']`, and `fileInfo` is the dictionary handed to `insert_attachments` at line 153. The model removes the temporary path itself, so it assumes the backend leaves that entry unchanged.
- Storage.Catch: the details text of every caught exception (`str(e)` at lines 90, 104, 106, 115, 124, 133, 155, 171, 180, 190 and 199) is the outcome's `reason` string, and the JSON parser's error text at line 220 is the parse failure's reason. The model assumes `str()` always succeeds. Under Python 2 it raises `UnicodeEncodeError` for a unicode message with a non-ASCII character, and the route would then answer 500 instead of 404 or 400.
- `send_attachment_file` is not part of this model. Its response, or the exception it raises, is an input to `Routes.GetFile`.
- Flask and werkzeug are left out: routing, `jsonify`, the absolute base URL from `url_for`, and the `Location` URL text. Links and locations are kept as structured values. `secure_filename` is a parameter.
- The catch-all route for invalid paths (lines 46-49, a workaround for a Flask issue) is left out: it is framework plumbing.
- JSON parsing and Python's `int()` are represented by their outcomes. JSON numbers are integers; fractional numbers are not modelled.
- `ApiError.__str__` (lines 21-22) is left out: it only formats text for logs. `err_code` is modelled as an optional integer, which is the only kind the blueprint ever gives it (in fact none of its call sites set it).
- The file system is reduced to the set of temporary paths and a removal log. File contents, writing the upload, and the file descriptor closed at line 151 are not modelled. A failure of `os.remove` inside the `finally` is not modelled either.
- Logging in `exceptionHandler`, concurrency, and per-request threading are left out.
- `cli/agherant.py` is not part of this model. It is command-line bootstrap: configuration loading, logger setup and option parsing.
- QueryString.ReadQuery: this is a reference reader, not werkzeug's parser. It splits only at `&`, decodes `%XY` escapes and `+`, and keeps the first value of a repeated name. `QueryString.Encode` escapes only the six characters `%`, `&`, `=`, `+`, `#` and space. Other characters are written as they are, which is enough for the round trip against this reader.

## Findings

| source | as written | input that shows it | evidently intended | confidence | as-written member | corrected member |
|---|---|---|---|---|---|---|
| webant/api/blueprint_api.py:143-158 | the upload is written to the temporary file (line 144) before the `try` whose `finally` removes that file | a request with valid metadata and a `file`, where `upFile.save` raises (for example, the disk is full); `Attachments.SaveFailureLeaksTempFile` shows the file left behind | the temporary file is removed on every exit path | medium, not executed | Attachments.AddAttachmentsAsWritten | Attachments.AddAttachments |
| webant/api/blueprint_api.py:74-75 | the search query `q` is pasted into the page-link arguments without escaping | `q = "a&b"`: the link reads `?q=a&b&from=…`, and following it searches for `a`; `QueryString.ArgsCut` shows this for every query containing `&`, and `QueryString.UnescapedQueryIsCut` for the link of every ASCII such query | `q` is URL-encoded, so that the next and previous links repeat the same search | medium, not executed | QueryString.PageArgsAsWritten | QueryString.PageArgs |

=== FILE: attachments.dfy ===
/** Upload of an attachment, `add_attachments`: the request is checked, the
    upload is staged in a temporary file, the backend stores it, and the
    temporary file is removed. */
module Attachments {
  import opened Wrappers
  import opened Documents
  import opened Responses
  import opened Storage
  import opened MetadataInput
  import opened TempFiles

  /** The uploaded file under a request's `file` key. */
  datatype Upload = Upload(filename: string, mimetype: string)

  /** The description of a staged file handed to the backend. */
  datatype FileInfo = FileInfo(file: TempPath, name: string, mime: string, notes: Json)

  /** A handler's result together with the temporary files it leaves. */
  datatype Outcome = Outcome(result: Result<Response, Fault>, fs: FsState)

  const FileKey := "file"

  const MissingFileError := ApiError("malformed request", 400, None, Some("file not found under 'file' key"))

  /** The checks made before any temporary file exists: optional metadata
      that is an object when present, and an uploaded file. */
  ghost predicate Validated(values: map<string, string>, files: map<string, Upload>, parse: string -> ParseResult)
  {
    ReceiveMetadata(values, true, parse).Success? && FileKey in files
  }

  /** The file information for the backend; `secure` is the file-name
      sanitizer. Notes come from the metadata and default to the empty
      string. */
  function Info(tmp: TempPath, upload: Upload, metadata: Metadata, secure: string -> string): (info: FileInfo)
    ensures info.file == tmp && info.mime == upload.mimetype && info.name == secure(upload.filename)
    ensures "notes" in metadata ==> info.notes == metadata["notes"]
    ensures "notes" !in metadata ==> info.notes == JString("")
  {
    FileInfo(tmp, secure(upload.filename), upload.mimetype, GetOr(metadata, "notes", JString("")))
  }

  /** The backend call and the answer built from it: the first returned id is
      the new attachment's. */
  function Commit(volumeId: string, info: FileInfo, insert: (string, seq<FileInfo>) -> StoreOutcome<seq<string>>): (r: Result<Response, Fault>)
    ensures var o := insert(volumeId, [info]);
      && (r.Success? <==> o.Ok? && |o.value| > 0)
      && (r.Success? ==>
            && r.value.status == 201
            && r.value.body == DataBody(Created(o.value[0], AttachmentLocation(volumeId, o.value[0])))
            && r.value.location == Some(AttachmentLocation(volumeId, o.value[0])))
      && (o.NotFound? ==> r == Failure(ApiFault(ApiError("volume not found", 404, None, Some(o.reason)))))
      && (r.Failure? && !o.NotFound? ==> Serve(r).status == 500)
  {
    var ids :- Catch(insert(volumeId, [info]), Some("volume not found"), None);
    if |ids| == 0 then
      Failure(InternalFault)
    else
      var self := AttachmentLocation(volumeId, ids[0]);
      Success(Response(201, DataBody(Created(ids[0], self)), Some(self)))
  }

  /** `add_attachments` as written: `tmp` is the path `mkstemp` returns and
      `saveOk` whether writing the upload into it succeeds. Writing the upload
      happens before the `try` whose `finally` removes the file. */
  function AddAttachmentsAsWritten(
    volumeId: string, values: map<string, string>, files: map<string, Upload>,
    parse: string -> ParseResult, secure: string -> string,
    tmp: TempPath, saveOk: bool, fs: FsState,
    insert: (string, seq<FileInfo>) -> StoreOutcome<seq<string>>): (out: Outcome)
    requires tmp !in fs.live
    // rejected requests never create a temporary file
    ensures ReceiveMetadata(values, true, parse).Failure? ==>
      out == Outcome(Failure(ApiFault(ReceiveMetadata(values, true, parse).error)), fs)
    ensures ReceiveMetadata(values, true, parse).Success? && FileKey !in files ==>
      out == Outcome(Failure(ApiFault(MissingFileError)), fs)
    // a failed save leaves the file behind and ends in the catch-all
    ensures Validated(values, files, parse) && !saveOk ==>
      out.result == Failure(InternalFault) && out.fs == Create(fs, tmp)
    // once the save succeeded the file is removed exactly once, whatever the backend does
    ensures Validated(values, files, parse) && saveOk ==>
      && out.fs.live == fs.live
      && out.fs.removed == fs.removed + [tmp]
      && out.result == Commit(volumeId, Info(tmp, files[FileKey], ReceiveMetadata(values, true, parse).value, secure), insert)
  {
    var metadata := ReceiveMetadata(values, true, parse);
    if metadata.Failure? then Outcome(Failure(ApiFault(metadata.error)), fs)
    else if FileKey !in files then Outcome(Failure(ApiFault(MissingFileError)), fs)
    else
      var staged := Create(fs, tmp);
      if !saveOk then Outcome(Failure(InternalFault), staged)
      else
        var info := Info(tmp, files[FileKey], metadata.value, secure);
        Outcome(Commit(volumeId, info, insert), Remove(staged, tmp))
  }

  /** `add_attachments` with the upload written inside the `try`, so that the
      `finally` also covers a failed save. */
  function AddAttachments(
    volumeId: string, values: map<string, string>, files: map<string, Upload>,
    parse: string -> ParseResult, secure: string -> string,
    tmp: TempPath, saveOk: bool, fs: FsState,
    insert: (string, seq<FileInfo>) -> StoreOutcome<seq<string>>): (out: Outcome)
    requires tmp !in fs.live
    // no path leaves a temporary file behind
    ensures out.fs.live == fs.live
    // a file is created only after validation, and then removed exactly once
    ensures !Validated(values, files, parse) ==> out.fs == fs
    ensures Validated(values, files, parse) ==> out.fs.removed == fs.removed + [tmp]
    ensures Validated(values, files, parse) ==> Removals(out.fs, tmp) == Removals(fs, tmp) + 1
    // the client sees the same answer as with the code as written
    ensures out.result == AddAttachmentsAsWritten(volumeId, values, files, parse, secure, tmp, saveOk, fs, insert).result
  {
    var metadata := ReceiveMetadata(values, true, parse);
    if metadata.Failure? then Outcome(Failure(ApiFault(metadata.error)), fs)
    else if FileKey !in files then Outcome(Failure(ApiFault(MissingFileError)), fs)
    else
      var staged := Create(fs, tmp);
      var result :=
        if !saveOk then Failure(InternalFault)
        else Commit(volumeId, Info(tmp, files[FileKey], metadata.value, secure), insert);
      CreateThenRemove(fs, tmp);
      Outcome(result, Remove(staged, tmp))
  }

  /** The discrepancy: as written, a failed save of a validated upload leaves
      its temporary file in place, while the corrected handler removes it. */
  lemma SaveFailureLeaksTempFile(
    volumeId: string, values: map<string, string>, files: map<string, Upload>,
    parse: string -> ParseResult, secure: string -> string,
    tmp: TempPath, fs: FsState,
    insert: (string, seq<FileInfo>) -> StoreOutcome<seq<string>>)
    requires tmp !in fs.live
    requires Validated(values, files, parse)
    ensures tmp in AddAttachmentsAsWritten(volumeId, values, files, parse, secure, tmp, false, fs, insert).fs.live
    ensures tmp !in AddAttachments(volumeId, values, files, parse, secure, tmp, false, fs, insert).fs.live
  {
  }
}

=== FILE: documents.dfy ===
/** The semi-structured documents the API exchanges: JSON values. */
module Documents {

  /** A JSON value. Numbers are integral: fractional numbers are not modelled. */
  datatype Json =
    | JNull
    | JBool(b: bool)
    | JNumber(n: int)
    | JString(s: string)
    | JArray(items: seq<Json>)
    | JObject(fields: map<string, Json>)

  /** A metadata document: the members of a JSON object. */
  type Metadata = map<string, Json>

  /** Outcome of the JSON parser applied to a request value. */
  datatype ParseResult = Parsed(json: Json) | ParseError(reason: string)

  /** `d.get(key, default)` on a metadata document. */
  function GetOr(d: Metadata, key: string, default: Json): (v: Json)
    ensures key in d ==> v == d[key]
    ensures key !in d ==> v == default
  {
    if key in d then d[key] else default
  }
}

=== FILE: metadata.dfy ===
/** Acceptance of the `metadata` request value: `receive_metadata` and
    `receive_volume_metadata`. */
module MetadataInput {
  import opened Wrappers
  import opened Documents
  import opened Responses

  /** The name of the request value that carries the metadata document. */
  const MetadataKey := "metadata"

  /** Fields a volume's metadata must contain. */
  const VolumeRequiredFields := ["_language"]

  /** The request is accepted when the metadata value is an object, or when it
      is absent and the caller marked it optional. */
  ghost predicate Acceptable(values: map<string, string>, optional: bool, parse: string -> ParseResult)
  {
    if MetadataKey in values then parse(values[MetadataKey]).Parsed? && parse(values[MetadataKey]).json.JObject?
    else optional
  }

  /** `receive_metadata(optional)`: reads the `metadata` request value, parses
      it as JSON and insists on an object. `values` holds the first value of
      each request parameter; `parse` is the JSON parser. */
  function ReceiveMetadata(values: map<string, string>, optional: bool, parse: string -> ParseResult): (r: Result<Metadata, ApiError>)
    ensures r.Success? <==> Acceptable(values, optional, parse)
    ensures r.Failure? ==> r.error.httpCode == 400 && r.error.errCode.None? && r.error.details.Some?
    ensures MetadataKey !in values && optional ==> r == Success(map[])
    ensures MetadataKey !in values && !optional ==> r.error.message == "malformed request"
    ensures MetadataKey !in values && !optional ==> r.error.details == Some("missing 'metadata' in request")
    ensures MetadataKey in values && r.Success? ==> JObject(r.value) == parse(values[MetadataKey]).json
    ensures MetadataKey in values && r.Failure? ==> r.error.message == "malformed metadata"
    ensures MetadataKey in values && parse(values[MetadataKey]).ParseError? ==>
      r.error.details == Some(parse(values[MetadataKey]).reason)
    ensures MetadataKey in values && parse(values[MetadataKey]).Parsed? && !parse(values[MetadataKey]).json.JObject? ==>
      r.error.details == Some("metadata value should be a json object")
  {
    if optional && MetadataKey !in values then
      Success(map[])
    else if MetadataKey !in values then
      Failure(ApiError("malformed request", 400, None, Some("missing 'metadata' in request")))
    else
      match parse(values[MetadataKey])
      case ParseError(reason) => Failure(ApiError("malformed metadata", 400, None, Some(reason)))
      case Parsed(JObject(fields)) => Success(fields)
      case Parsed(_) => Failure(ApiError("malformed metadata", 400, None, Some("metadata value should be a json object")))
  }

  /** An absent metadata value is never handed to the parser: the outcome is
      the same whatever the parser would have said. */
  lemma AbsentMetadataIsNotParsed(values: map<string, string>, optional: bool, p1: string -> ParseResult, p2: string -> ParseResult)
    requires MetadataKey !in values
    ensures ReceiveMetadata(values, optional, p1) == ReceiveMetadata(values, optional, p2)
  {
  }

  /** The position of the first required field that `m` lacks, if any. */
  function FirstMissing(required: seq<string>, m: Metadata): (r: Option<nat>)
    ensures r.None? <==> forall i :: 0 <= i < |required| ==> required[i] in m
    ensures r.Some? ==> r.value < |required| && required[r.value] !in m
    ensures r.Some? ==> forall i :: 0 <= i < r.value ==> required[i] in m
  {
    if |required| == 0 then None
    else if required[0] !in m then Some(0)
    else match FirstMissing(required[1..], m)
      case None => None
      case Some(k) => Some(k + 1)
  }

  function MissingFieldDetails(field: string): string
  {
    "Required field '" + field + "' is missing in metadata"
  }

  /** `receive_volume_metadata`: the metadata must be present (not optional),
      be an object, and contain every required volume field; it is then
      returned unchanged. */
  function ReceiveVolumeMetadata(values: map<string, string>, parse: string -> ParseResult): (r: Result<Metadata, ApiError>)
    ensures r.Success? <==> ReceiveMetadata(values, false, parse).Success? && "_language" in ReceiveMetadata(values, false, parse).value
    ensures r.Success? ==> r == ReceiveMetadata(values, false, parse)
    ensures ReceiveMetadata(values, false, parse).Failure? ==> r == ReceiveMetadata(values, false, parse)
    ensures ReceiveMetadata(values, false, parse).Success? && r.Failure? ==>
      r.error == ApiError("malformed metadata", 400, None, Some(MissingFieldDetails("_language")))
  {
    var metadata :- ReceiveMetadata(values, false, parse);
    match FirstMissing(VolumeRequiredFields, metadata)
    case Some(i) => Failure(ApiError("malformed metadata", 400, None, Some(MissingFieldDetails(VolumeRequiredFields[i]))))
    case None => Success(metadata)
  }
}

=== FILE: pagination.dfy ===
/** The volume listing, `get_volumes`: argument defaults, the page-size
    ceiling and the offsets of the neighbouring pages. */
module Pagination {
  import opened Wrappers
  import opened Documents
  import opened Responses
  import opened Storage

  /** A numeric request argument after `int(...)`: absent, a number, or a
      string `int` rejects. */
  datatype IntArg = Absent | Number(n: int) | NotANumber

  datatype VolumeQuery = VolumeQuery(q: Option<string>, from: IntArg, size: IntArg)

  /** The part of the search engine's answer the listing uses. */
  datatype Hits = Hits(total: int, hits: seq<Json>)

  /** Every character is ASCII. Under Python 2 the request's `q` is a
      unicode string, and formatting it into the byte-string link template
      raises `UnicodeEncodeError` unless it is. */
  predicate Ascii(s: string)
  {
    forall i :: 0 <= i < |s| ==> s[i] as int < 128
  }

  const DefaultQuery := "*:*"
  const DefaultFrom := 0
  const DefaultSize := 10
  /** Used when the configuration has no `MAX_RESULTS_PER_PAGE`. */
  const DefaultMaxResultsPerPage := 50

  function ArgOr(a: IntArg, default: int): (r: Option<int>)
    ensures a.Absent? ==> r == Some(default)
    ensures a.Number? ==> r == Some(a.n)
    ensures a.NotANumber? ==> r.None?
  {
    match a
    case Absent => Some(default)
    case Number(n) => Some(n)
    case NotANumber => None
  }

  /** Offset of the following page. */
  function NextOffset(from: int, size: int): int
  {
    from + size
  }

  /** Offset of the preceding page: one page back, clamped at zero. */
  function PrevOffset(from: int, size: int): (r: int)
    ensures r >= 0
    ensures r >= from - size
    ensures r == from - size || r == 0
  {
    if from - size > -1 then from - size else 0
  }

  /** Stepping forward and then back returns to the same page whenever the
      offset is not negative (negative offsets and sizes are not rejected). */
  lemma PrevUndoesNext(from: int, size: int)
    requires from >= 0
    ensures PrevOffset(NextOffset(from, size), size) == from
  {
  }

  /** Stepping back and then forward returns to the same page exactly when
      the clamp did not apply. */
  lemma NextUndoesPrev(from: int, size: int)
    ensures NextOffset(PrevOffset(from, size), size) == from <==> from - size >= 0
  {
  }

  /** The answer to a successful search: the normalized hits, the total and
      the links to the neighbouring pages of the same query and size. */
  function Page(q: string, from: int, size: int, found: Hits, normalize: Json -> Json): (resp: Response)
    ensures resp.status == 200 && resp.location.None?
    ensures resp.body.DataBody? && resp.body.data.VolumePage?
    ensures resp.body.data.linkNext == PageLink(q, from + size, size)
    ensures resp.body.data.linkPrev == PageLink(q, if from - size >= 0 then from - size else 0, size)
    ensures resp.body.data.total == found.total
    ensures |resp.body.data.volumes| == |found.hits|
    ensures forall i :: 0 <= i < |found.hits| ==> resp.body.data.volumes[i] == normalize(found.hits[i])
  {
    var volumes := seq(|found.hits|, i requires 0 <= i < |found.hits| => normalize(found.hits[i]));
    var next := PageLink(q, NextOffset(from, size), size);
    var prev := PageLink(q, PrevOffset(from, size), size);
    Response(200, DataBody(VolumePage(prev, next, found.total, volumes)), None)
  }

  /** `get_volumes`: `maxResults` is the configured `MAX_RESULTS_PER_PAGE`,
      `search` the search engine, `normalize` the backend's volume
      normalization. */
  function GetVolumes(query: VolumeQuery, maxResults: Option<int>, search: (string, int, int) -> StoreOutcome<Hits>, normalize: Json -> Json): (r: Result<Response, Fault>)
    // a malformed `from` is reported before anything else is looked at
    ensures query.from.NotANumber? ==>
      r == Failure(ApiFault(ApiError("Bad Request", 400, None, Some("could not covert 'from' parameter to number"))))
    ensures !query.from.NotANumber? && query.size.NotANumber? ==>
      r == Failure(ApiFault(ApiError("Bad Request", 400, None, Some("could not covert 'size' parameter to number"))))
    // only the upper bound of the size is checked, and the bound is inclusive
    ensures !query.from.NotANumber? && !query.size.NotANumber? ==>
      var size := ArgOr(query.size, DefaultSize).value;
      var max := if maxResults.Some? then maxResults.value else DefaultMaxResultsPerPage;
      (size > max <==> r == Failure(ApiFault(ApiError("Request Entity Too Large", 413, None, Some("'size' parameter is too high")))))
    // a parsable request within the bound is answered exactly when the search
    // succeeds and the query can be written into the links; otherwise it is a 500
    ensures !query.from.NotANumber? && !query.size.NotANumber? ==>
      var q := if query.q.Some? then query.q.value else DefaultQuery;
      var from := ArgOr(query.from, DefaultFrom).value;
      var size := ArgOr(query.size, DefaultSize).value;
      var max := if maxResults.Some? then maxResults.value else DefaultMaxResultsPerPage;
      size <= max ==>
        && (r.Success? <==> search(q, from, size).Ok? && Ascii(q))
        && (r.Failure? ==> !r.error.ApiFault? && Serve(r).status == 500)
        && (search(q, from, size).Ok? && !Ascii(q) ==> r == Failure(InternalFault))
    // on success the search ran on the requested page and both links stay on the same query and size
    ensures r.Success? ==>
      var q := if query.q.Some? then query.q.value else DefaultQuery;
      var from := ArgOr(query.from, DefaultFrom).value;
      var size := ArgOr(query.size, DefaultSize).value;
      && search(q, from, size).Ok?
      && r.value == Page(q, from, size, search(q, from, size).value, normalize)
  {
    var q := if query.q.Some? then query.q.value else DefaultQuery;
    var from :- ArgOr(query.from, DefaultFrom).ToResult(
      ApiFault(ApiError("Bad Request", 400, None, Some("could not covert 'from' parameter to number"))));
    var size :- ArgOr(query.size, DefaultSize).ToResult(
      ApiFault(ApiError("Bad Request", 400, None, Some("could not covert 'size' parameter to number"))));
    var max := if maxResults.Some? then maxResults.value else DefaultMaxResultsPerPage;
    if size > max then
      Failure(ApiFault(ApiError("Request Entity Too Large", 413, None, Some("'size' parameter is too high"))))
    else
      var found :- Catch(search(q, from, size), None, None);
      // the links are built after the search has run
      if !Ascii(q) then Failure(InternalFault)
      else Success(Page(q, from, size, found, normalize))
  }
}

=== FILE: querystring.dfy ===
/** The argument strings of the listing's page links,
    `"?q={}&from={}&size={}".format(...)`, and a reference reader of such
    strings. The reader splits at `&`, splits each field at its first `=`,
    decodes `%XY` escapes and `+`, and keeps the first value of a repeated
    name. */
module QueryString {
  import opened Wrappers
  import opened Responses
  import opened Pagination

  // ---------------------------------------------------------------- decimals

  predicate IsDigit(c: char)
  {
    '0' <= c <= '9'
  }

  predicate AllDigits(s: string)
  {
    forall i :: 0 <= i < |s| ==> IsDigit(s[i])
  }

  function DigitChar(d: nat): (c: char)
    requires d < 10
    ensures IsDigit(c) && c as int - '0' as int == d
  {
    ('0' as int + d) as char
  }

  /** The decimal digits of `n`, most significant first, without leading zeros. */
  function Digits(n: nat): (s: string)
    ensures |s| > 0 && AllDigits(s)
  {
    if n < 10 then [DigitChar(n)] else Digits(n / 10) + [DigitChar(n % 10)]
  }

  /** `str(n)` for an integer. */
  function FormatInt(n: int): (s: string)
    ensures |s| > 0
    ensures n >= 0 ==> AllDigits(s)
    ensures n < 0 ==> s[0] == '-' && AllDigits(s[1..])
  {
    if n < 0 then "-" + Digits(-n) else Digits(n)
  }

  /** The number a string of decimal digits denotes. */
  function NatValue(s: string): nat
    requires AllDigits(s)
  {
    if |s| == 0 then 0 else NatValue(s[..|s| - 1]) * 10 + (s[|s| - 1] as int - '0' as int)
  }

  /** The reader's decimal integers: optional minus sign, then digits. */
  function ParseDecimal(s: string): Option<int>
  {
    if |s| > 1 && s[0] == '-' && AllDigits(s[1..]) then Some(0 - NatValue(s[1..]))
    else if |s| > 0 && AllDigits(s) then Some(NatValue(s))
    else None
  }

  lemma {:induction false} NatValueOfDigits(n: nat)
    ensures NatValue(Digits(n)) == n
  {
    if n >= 10 {
      var s := Digits(n);
      assert s[..|s| - 1] == Digits(n / 10);
      NatValueOfDigits(n / 10);
    }
  }

  /** Every integer written into a link reads back as itself. */
  lemma FormatIntRoundTrip(n: int)
    ensures ParseDecimal(FormatInt(n)) == Some(n)
  {
    var s := FormatInt(n);
    if n < 0 {
      var d := Digits(-n);
      assert s == "-" + d;
      assert s[1..] == d;
      NatValueOfDigits(-n);
      assert |s| > 1 && s[0] == '-' && AllDigits(s[1..]);
    } else {
      NatValueOfDigits(n);
      assert IsDigit(s[0]);
      assert s[0] != '-';
      assert |s| > 0 && AllDigits(s);
    }
  }

  // ------------------------------------------------------- percent-encoding

  /** Characters that carry meaning inside a query string. */
  predicate Reserved(c: char)
  {
    c == '%' || c == '&' || c == '=' || c == '+' || c == '#' || c == ' '
  }

  predicate IsHex(c: char)
  {
    '0' <= c <= '9' || 'A' <= c <= 'F' || 'a' <= c <= 'f'
  }

  function HexChar(d: nat): (c: char)
    requires d < 16
    ensures IsHex(c)
  {
    if d < 10 then ('0' as int + d) as char else ('A' as int + d - 10) as char
  }

  function HexValue(c: char): (d: nat)
    requires IsHex(c)
    ensures d < 16
  {
    if '0' <= c <= '9' then c as int - '0' as int
    else if 'A' <= c <= 'F' then c as int - 'A' as int + 10
    else c as int - 'a' as int + 10
  }

  function EncodeChar(c: char): (e: string)
    ensures forall i :: 0 <= i < |e| ==> !Reserved(e[i]) || e[i] == '%'
  {
    if Reserved(c) then ['%', HexChar(c as int / 16), HexChar(c as int % 16)] else [c]
  }

  /** Escapes every reserved character as `%XY`. */
  function Encode(s: string): (e: string)
    ensures forall i :: 0 <= i < |e| ==> !Reserved(e[i]) || e[i] == '%'
    ensures (forall i :: 0 <= i < |s| ==> !Reserved(s[i])) ==> e == s
  {
    if |s| == 0 then [] else EncodeChar(s[0]) + Encode(s[1..])
  }

  /** Undoes `%XY` escapes and reads `+` as a space. */
  function Decode(s: string): (d: string)
    ensures |d| <= |s|
    ensures ('%' !in s && '+' !in s) ==> d == s
  {
    if |s| == 0 then []
    else if s[0] == '%' && |s| >= 3 && IsHex(s[1]) && IsHex(s[2]) then
      [(16 * HexValue(s[1]) + HexValue(s[2])) as char] + Decode(s[3..])
    else if s[0] == '+' then [' '] + Decode(s[1..])
    else [s[0]] + Decode(s[1..])
  }

  lemma DecodeEncodedChar(c: char, rest: string)
    ensures Decode(EncodeChar(c) + rest) == [c] + Decode(rest)
  {
    var s := EncodeChar(c) + rest;
    if Reserved(c) {
      var hi, lo := c as int / 16, c as int % 16;
      assert HexValue(HexChar(hi)) == hi;
      assert HexValue(HexChar(lo)) == lo;
      assert s[3..] == rest;
    } else {
      assert s[1..] == rest;
    }
  }

  lemma {:induction false} DecodeEncode(s: string)
    ensures Decode(Encode(s)) == s
  {
    if |s| > 0 {
      DecodeEncodedChar(s[0], Encode(s[1..]));
      DecodeEncode(s[1..]);
    }
  }

  // ----------------------------------------------------------------- fields

  function IndexOf(s: string, c: char): (i: nat)
    requires c in s
    ensures i < |s| && s[i] == c && c !in s[..i]
  {
    if s[0] == c then 0 else 1 + IndexOf(s[1..], c)
  }

  /** The `&`-separated fields of a query string. */
  function Split(s: string): (fields: seq<string>)
    ensures |fields| > 0
    decreases |s|
  {
    if '&' in s then
      var i := IndexOf(s, '&');
      [s[..i]] + Split(s[i + 1..])
    else [s]
  }

  lemma SplitAt(a: string, b: string)
    requires '&' !in a
    ensures Split(a + "&" + b) == [a] + Split(b)
  {
    var s := a + "&" + b;
    assert s[|a|] == '&';
    var i := IndexOf(s, '&');
    assert s[..|a|] == a;
    assert i == |a|;
    assert s[..i] == a;
    assert s[i + 1..] == b;
  }

  /** A field split at its first `=` into name and value; a field without
      `=` is all name, with an empty value. */
  function SplitField(field: string): (parts: (string, string))
  {
    if |field| == 0 then ("", "")
    else if field[0] == '=' then ("", field[1..])
    else
      var rest := SplitField(field[1..]);
      ([field[0]] + rest.0, rest.1)
  }

  lemma {:induction false} FieldParts(name: string, value: string)
    requires '=' !in name
    ensures SplitField(name + "=" + value) == (name, value)
  {
    var f := name + "=" + value;
    if |name| == 0 {
      assert f[1..] == value;
    } else {
      assert f[1..] == name[1..] + "=" + value;
      FieldParts(name[1..], value);
      assert [name[0]] + name[1..] == name;
    }
  }

  /** A field read as its decoded name and its still encoded value. */
  function Pair(field: string): (string, string)
  {
    (Decode(SplitField(field).0), SplitField(field).1)
  }

  function Pairs(fields: seq<string>): (pairs: seq<(string, string)>)
    ensures |pairs| == |fields|
    ensures forall i :: 0 <= i < |fields| ==> pairs[i] == Pair(fields[i])
  {
    seq(|fields|, i requires 0 <= i < |fields| => Pair(fields[i]))
  }

  /** The encoded value of the first pair named `name`. */
  function Lookup(pairs: seq<(string, string)>, name: string): (r: Option<string>)
    ensures r.Some? ==> exists i :: 0 <= i < |pairs| && pairs[i] == (name, r.value)
  {
    if |pairs| == 0 then None
    else if pairs[0].0 == name then Some(pairs[0].1)
    else
      var r := Lookup(pairs[1..], name);
      if r.Some? then
        ghost var i :| 0 <= i < |pairs[1..]| && pairs[1..][i] == (name, r.value);
        assert pairs[i + 1] == (name, r.value);
        r
      else r
  }

  /** A numeric argument as `int(request.args.get(name, default))` sees it. */
  function ReadIntArg(pairs: seq<(string, string)>, name: string): IntArg
  {
    match Lookup(pairs, name)
    case None => Absent
    case Some(v) => match ParseDecimal(Decode(v)) case Some(n) => Number(n) case None => NotANumber
  }

  /** The decoded value of the first pair named `name`. */
  function ReadArg(pairs: seq<(string, string)>, name: string): Option<string>
  {
    match Lookup(pairs, name)
    case None => None
    case Some(v) => Some(Decode(v))
  }

  /** The listing request a link's argument string stands for. */
  function ReadQuery(args: string): VolumeQuery
  {
    var pairs := Pairs(Split(if |args| > 0 && args[0] == '?' then args[1..] else args));
    VolumeQuery(ReadArg(pairs, "q"), ReadIntArg(pairs, "from"), ReadIntArg(pairs, "size"))
  }

  // ------------------------------------------------------------ page links

  /** `"?q={}&from={}&size={}"` filled with already formatted parts. */
  function Args(q: string, from: string, size: string): string
  {
    "?q=" + q + "&from=" + from + "&size=" + size
  }

  lemma NoAmpersandAfterName(name: string, v: string)
    requires '&' !in name && '&' !in v
    ensures '&' !in name + "=" + v
  {
    var f := name + "=" + v;
    forall i | 0 <= i < |f| ensures f[i] != '&' {
      if i < |name| { assert f[i] == name[i]; }
      else if i > |name| { assert f[i] == v[i - |name| - 1]; }
    }
  }

  lemma SplitTail(from: string, size: string)
    requires '&' !in from && '&' !in size
    ensures Split(("from=" + from) + "&" + ("size=" + size)) == ["from=" + from, "size=" + size]
  {
    NoAmpersandAfterName("from", from);
    NoAmpersandAfterName("size", size);
    SplitAt("from=" + from, "size=" + size);
    assert Split("size=" + size) == ["size=" + size];
  }

  lemma SplitArgs(q: string, from: string, size: string)
    requires '&' !in q && '&' !in from && '&' !in size
    ensures Split(Args(q, from, size)[1..]) == ["q=" + q, "from=" + from, "size=" + size]
  {
    assert Args(q, from, size)[1..] == ("q=" + q) + "&" + (("from=" + from) + "&" + ("size=" + size));
    NoAmpersandAfterName("q", q);
    SplitAt("q=" + q, ("from=" + from) + "&" + ("size=" + size));
    SplitTail(from, size);
  }

  /** An argument string whose query holds an `&`, regrouped at that `&`. */
  lemma ArgsCutTail(a: string, rest: string, from: string, size: string)
    ensures Args(a + "&" + rest, from, size)[1..] == ("q=" + a) + "&" + (rest + "&from=" + from + "&size=" + size)
  {
  }

  /** With `&` in the query, the first field ends at that `&`. */
  lemma SplitArgsCut(q: string, from: string, size: string)
    requires '&' in q
    ensures Split(Args(q, from, size)[1..])[0] == "q=" + q[..IndexOf(q, '&')]
  {
    var i := IndexOf(q, '&');
    var a, rest := q[..i], q[i + 1..];
    NoAmpersandAfterName("q", a);
    assert q == a + "&" + rest;
    var tail := rest + "&from=" + from + "&size=" + size;
    ArgsCutTail(a, rest, from, size);
    SplitAt("q=" + a, tail);
  }

  lemma DigitsHaveNoSpecials(n: int)
    ensures '&' !in FormatInt(n) && '%' !in FormatInt(n) && '+' !in FormatInt(n)
  {
    var s := FormatInt(n);
    if n < 0 {
      forall i | 1 <= i < |s| ensures IsDigit(s[i]) { assert s[i] == s[1..][i - 1]; }
    }
  }

  lemma NameIsPlain(name: string)
    requires '%' !in name && '+' !in name
    ensures Decode(name) == name
  {
  }

  /** A field `name=v` with a plain name reads as that name and value. */
  lemma PairOf(field: string, name: string, v: string)
    requires field == name + "=" + v
    requires '=' !in name && '%' !in name && '+' !in name
    ensures Pair(field) == (name, v)
  {
    FieldParts(name, v);
    NameIsPlain(name);
  }

  lemma LookupFirst(pairs: seq<(string, string)>, name: string)
    requires |pairs| > 0 && pairs[0].0 == name
    ensures Lookup(pairs, name) == Some(pairs[0].1)
  {
  }

  lemma LookupSkip(pairs: seq<(string, string)>, name: string)
    requires |pairs| > 0 && pairs[0].0 != name
    ensures Lookup(pairs, name) == Lookup(pairs[1..], name)
  {
  }

  lemma LookupThree(pairs: seq<(string, string)>, q: string, f: string, s: string)
    requires pairs == [("q", q), ("from", f), ("size", s)]
    ensures Lookup(pairs, "q") == Some(q)
    ensures Lookup(pairs, "from") == Some(f)
    ensures Lookup(pairs, "size") == Some(s)
  {
    var rest := pairs[1..];
    assert rest == [("from", f), ("size", s)];
    var last := rest[1..];
    assert last == [("size", s)];
    assert "q" != "from" by { assert |"q"| != |"from"|; }
    assert "q" != "size" by { assert |"q"| != |"size"|; }
    assert "from" != "size" by { assert "size"[0] != "from"[0]; }
    LookupFirst(pairs, "q");
    LookupSkip(pairs, "from");
    LookupFirst(rest, "from");
    LookupSkip(pairs, "size");
    LookupSkip(rest, "size");
    LookupFirst(last, "size");
  }

  lemma FieldPairs(fields: seq<string>, q: string, f: string, s: string)
    requires |fields| == 3
    requires fields[0] == "q=" + q && fields[1] == "from=" + f && fields[2] == "size=" + s
    ensures Pair(fields[0]) == ("q", q)
    ensures Pair(fields[1]) == ("from", f)
    ensures Pair(fields[2]) == ("size", s)
  {
    PairOf(fields[0], "q", q);
    PairOf(fields[1], "from", f);
    PairOf(fields[2], "size", s);
  }

  lemma PairsOfFields(fields: seq<string>, q: string, f: string, s: string)
    requires |fields| == 3
    requires fields[0] == "q=" + q && fields[1] == "from=" + f && fields[2] == "size=" + s
    ensures Pairs(fields) == [("q", q), ("from", f), ("size", s)]
  {
    FieldPairs(fields, q, f, s);
    var pairs := Pairs(fields);
    assert pairs[0] == ("q", q) && pairs[1] == ("from", f) && pairs[2] == ("size", s);
  }

  /** The three fields of an argument string, read as pairs. */
  lemma PairsOfArgs(q: string, f: string, s: string)
    requires '&' !in q && '&' !in f && '&' !in s
    ensures Pairs(Split(Args(q, f, s)[1..])) == [("q", q), ("from", f), ("size", s)]
  {
    SplitArgs(q, f, s);
    PairsOfFields(Split(Args(q, f, s)[1..]), q, f, s);
  }

  /** Reading an argument string looks its three names up among the pairs of
      its fields. */
  lemma ReadQueryOfArgs(q: string, f: string, s: string)
    ensures ReadQuery(Args(q, f, s)) ==
      var pairs := Pairs(Split(Args(q, f, s)[1..]));
      VolumeQuery(ReadArg(pairs, "q"), ReadIntArg(pairs, "from"), ReadIntArg(pairs, "size"))
  {
    assert Args(q, f, s)[0] == '?';
  }

  lemma ReadArgs(q: string, from: int, size: int)
    requires '&' !in q
    ensures ReadQuery(Args(q, FormatInt(from), FormatInt(size))) == VolumeQuery(Some(Decode(q)), Number(from), Number(size))
  {
    var f, s := FormatInt(from), FormatInt(size);
    DigitsHaveNoSpecials(from);
    DigitsHaveNoSpecials(size);
    PairsOfArgs(q, f, s);
    ReadQueryOfArgs(q, f, s);
    LookupThree(Pairs(Split(Args(q, f, s)[1..])), q, f, s);
    NameIsPlain(f);
    NameIsPlain(s);
    FormatIntRoundTrip(from);
    FormatIntRoundTrip(size);
  }

  /** The argument string of a page link as the listing builds it: the query
      is inserted without escaping, and a query that is not ASCII cannot be
      formatted into the byte-string template at all (`None`, the
      `UnicodeEncodeError` that ends in a 500). */
  function PageArgsAsWritten(l: PageLink): (args: Option<string>)
    ensures args.Some? <==> Ascii(l.q)
    ensures args.Some? && (forall i :: 0 <= i < |l.q| ==> !Reserved(l.q[i])) ==> args.value == PageArgs(l)
  {
    if Ascii(l.q) then Some(Args(l.q, FormatInt(l.from), FormatInt(l.size))) else None
  }

  /** Escaping the query makes the link read back as exactly the query,
      offset and size it was built from. */
  lemma EncodedArgsReadBack(q: string, from: int, size: int)
    ensures ReadQuery(Args(Encode(q), FormatInt(from), FormatInt(size))) == VolumeQuery(Some(q), Number(from), Number(size))
  {
    var e := Encode(q);
    assert '&' !in e by {
      forall i | 0 <= i < |e| ensures e[i] != '&' { assert !Reserved(e[i]) || e[i] == '%'; }
    }
    ReadArgs(e, from, size);
    DecodeEncode(q);
  }

  /** The argument string of a page link with the query escaped: following
      it asks for exactly the page it describes. */
  function PageArgs(l: PageLink): (args: string)
    ensures ReadQuery(args) == VolumeQuery(Some(l.q), Number(l.from), Number(l.size))
  {
    EncodedArgsReadBack(l.q, l.from, l.size);
    Args(Encode(l.q), FormatInt(l.from), FormatInt(l.size))
  }

  /** When the query has no reserved character the link is built correctly
      as written; in particular for the default query `*:*`. */
  lemma PlainQueryNeedsNoEscaping(l: PageLink)
    requires forall i :: 0 <= i < |l.q| ==> !Reserved(l.q[i])
    ensures PageArgsAsWritten(l) == if Ascii(l.q) then Some(PageArgs(l)) else None
    ensures Ascii(l.q) ==> ReadQuery(PageArgsAsWritten(l).value) == VolumeQuery(Some(l.q), Number(l.from), Number(l.size))
  {
  }

  /** A link whose query contains `&` reads back with the query cut at the
      first `&`. */
  lemma ArgsCut(q: string, f: string, s: string)
    requires '&' in q
    ensures ReadQuery(Args(q, f, s)).q != Some(q)
  {
    SplitArgsCut(q, f, s);
    var a := q[..IndexOf(q, '&')];
    var fields := Split(Args(q, f, s)[1..]);
    var pairs := Pairs(fields);
    PairOf(fields[0], "q", a);
    assert pairs[0] == ("q", a);
    LookupFirst(pairs, "q");
    ReadQueryOfArgs(q, f, s);
    assert |Decode(a)| <= |a| < |q|;
  }

  /** As written, a query containing `&` is cut at the first `&` when the
      link is followed: the next page is not a page of the same search. */
  lemma UnescapedQueryIsCut(l: PageLink)
    requires '&' in l.q && Ascii(l.q)
    ensures PageArgsAsWritten(l).Some?
    ensures ReadQuery(PageArgsAsWritten(l).value).q != Some(l.q)
  {
    ArgsCut(l.q, FormatInt(l.from), FormatInt(l.size));
  }
}

=== FILE: responses.dfy ===
/** The error type raised by the request handlers, the response bodies they
    build, and the blueprint's two error handlers that turn a raised error
    into a response. */
module Responses {
  import opened Wrappers
  import opened Documents

  /** `ApiError(message, http_code, err_code=None, details=None)`. */
  datatype ApiError = ApiError(message: string, httpCode: int, errCode: Option<int>, details: Option<string>)

  /** Anything a handler can raise: an `ApiError`, an exception of the storage
      backend that the route did not catch, or any other exception (a missing
      key, an index out of range, a failing file operation, a backend fault). */
  datatype Fault =
    | ApiFault(err: ApiError)
    | NotFoundFault(reason: string)
    | ValueFault(reason: string)
    | InternalFault

  /** Where a `Location` header points: the self link of a created resource. */
  datatype Location =
    | VolumeLocation(volumeId: string)
    | AttachmentLocation(volumeId: string, attachmentId: string)

  /** The arguments of a link to one page of the volume listing. */
  datatype PageLink = PageLink(q: string, from: int, size: int)

  /** What a successful response carries under its `data` key. */
  datatype Payload =
    | Created(id: string, self: Location)
    | Document(doc: Json)
    | VolumePage(linkPrev: PageLink, linkNext: PageLink, total: int, volumes: seq<Json>)

  datatype Body =
    | ErrorBody(code: int, message: string, details: string)
    | StatusBody(code: int, message: string)
    | DataBody(data: Payload)

  datatype Response = Response(status: int, body: Body, location: Option<Location>)

  /** `make_success_response`: a status message whose body code is the status. */
  function SuccessResponse(message: string, httpCode: int): (resp: Response)
    ensures resp.status == httpCode
    ensures resp.body.StatusBody? && resp.body.code == resp.status && resp.body.message == message
    ensures resp.location.None?
  {
    Response(httpCode, StatusBody(httpCode, message), None)
  }

  /** `apiErrorHandler`: the status is always the error's HTTP code; the body
      code is the application error code when one is given and the HTTP code
      otherwise; absent details read as the empty string. */
  function ApiErrorHandler(e: ApiError): (resp: Response)
    ensures resp.status == e.httpCode
    ensures resp.body.ErrorBody?
    ensures e.errCode.Some? ==> resp.body.code == e.errCode.value
    ensures e.errCode.None? ==> resp.body.code == resp.status
    ensures resp.body.message == e.message
    ensures e.details.Some? ==> resp.body.details == e.details.value
    ensures e.details.None? ==> resp.body.details == ""
    ensures resp.location.None?
  {
    var code := match e.errCode case Some(c) => c case None => e.httpCode;
    var details := match e.details case Some(d) => d case None => "";
    Response(e.httpCode, ErrorBody(code, message := e.message, details := details), None)
  }

  const InternalError := ApiError("internal server error", 500, None, None)

  /** `exceptionHandler`: every exception that is not an `ApiError` becomes a
      generic 500 error with no details. */
  function ExceptionHandler(f: Fault): (resp: Response)
    requires !f.ApiFault?
    ensures resp.status == 500
    ensures resp.body == ErrorBody(500, "internal server error", "")
  {
    ApiErrorHandler(InternalError)
  }

  /** Flask's dispatch of a raised exception to the most specific handler of
      the blueprint, and pass-through of a returned response. */
  function Serve(r: Result<Response, Fault>): (resp: Response)
    ensures r.Success? ==> resp == r.value
    ensures r.Failure? ==> resp.body.ErrorBody? && resp.location.None?
    ensures r.Failure? && r.error.ApiFault? ==> resp.status == r.error.err.httpCode
    ensures r.Failure? && !r.error.ApiFault? ==> resp.status == 500 && resp.body.details == ""
    // a raised ApiError is answered by its handler, anything else by the handler of the internal error
    ensures r.Failure? && r.error.ApiFault? ==> resp == ApiErrorHandler(r.error.err)
    ensures r.Failure? && !r.error.ApiFault? ==> resp == ApiErrorHandler(InternalError)
  {
    match r
    case Success(resp) => resp
    case Failure(ApiFault(e)) => ApiErrorHandler(e)
    case Failure(f) => ExceptionHandler(f)
  }

  /** A client cannot tell an error raised without details from one raised
      with empty details: both produce the same response. */
  lemma AbsentDetailsReadAsEmpty(message: string, httpCode: int, errCode: Option<int>)
    ensures ApiErrorHandler(ApiError(message, httpCode, errCode, None))
         == ApiErrorHandler(ApiError(message, httpCode, errCode, Some("")))
  {
  }

  /** The details a client sees as empty: none, or the empty string. */
  predicate NoDetails(d: Option<string>)
  {
    d.None? || d == Some("")
  }

  /** The error handler loses nothing else: with the same error code, equal
      responses come from errors with the same message and HTTP code, and
      with the same details unless both have none to show. */
  lemma ErrorResponseDistinguishes(e1: ApiError, e2: ApiError)
    requires e1.errCode == e2.errCode
    requires ApiErrorHandler(e1) == ApiErrorHandler(e2)
    ensures e1.message == e2.message && e1.httpCode == e2.httpCode
    ensures e1.details == e2.details || (NoDetails(e1.details) && NoDetails(e2.details))
  {
  }
}

=== FILE: routes.dfy ===
/** The volume and attachment routes of the API blueprint. Each route makes
    at most one backend call, given as a function parameter, and maps the
    backend's exceptions to statuses. */
module Routes {
  import opened Wrappers
  import opened Documents
  import opened Responses
  import opened Storage
  import opened MetadataInput
  import opened Attachments
  import opened TempFiles

  datatype Route =
    | AddVolumeRoute | UpdateVolumeRoute | GetVolumeRoute | DeleteVolumeRoute
    | GetAttachmentsRoute | AddAttachmentsRoute | GetAttachmentRoute
    | DeleteAttachmentRoute | UpdateAttachmentRoute | GetFileRoute

  /** Reference table: the status a client sees for each route and each kind
      of backend outcome, once the request itself was accepted. */
  function ExpectedStatus(route: Route, kind: OutcomeKind): int
  {
    match kind
    case KOk => if route in {AddVolumeRoute, UpdateVolumeRoute, AddAttachmentsRoute} then 201 else 200
    case KNotFound => if route in {AddVolumeRoute, UpdateAttachmentRoute} then 500 else 404
    case KValueErr => if route in {AddVolumeRoute, UpdateVolumeRoute, UpdateAttachmentRoute} then 400 else 500
    case KFault => 500
  }

  /** POST /volumes/ */
  function AddVolume(values: map<string, string>, parse: string -> ParseResult,
                     insert: Metadata -> StoreOutcome<string>): (r: Result<Response, Fault>)
    ensures var m := ReceiveVolumeMetadata(values, parse);
      && (m.Failure? ==> r == Failure(ApiFault(m.error)))
      && (m.Success? ==> Serve(r).status == ExpectedStatus(AddVolumeRoute, KindOf(insert(m.value))))
      && (m.Success? && insert(m.value).Ok? ==>
            r.Success? && r.value.location == Some(VolumeLocation(insert(m.value).value))
            && r.value.body == DataBody(Created(insert(m.value).value, VolumeLocation(insert(m.value).value))))
      && (m.Success? && insert(m.value).ValueErr? ==>
            r == Failure(ApiFault(ApiError("malformed metadata", 400, None, Some(insert(m.value).reason)))))
  {
    var metadata :- ReceiveVolumeMetadata(values, parse).MapFailure(e => ApiFault(e));
    var id :- Catch(insert(metadata), None, Some("malformed metadata"));
    Success(Response(201, DataBody(Created(id, VolumeLocation(id))), Some(VolumeLocation(id))))
  }

  /** PUT /volumes/<volumeID> */
  function UpdateVolume(volumeId: string, values: map<string, string>, parse: string -> ParseResult,
                        update: (string, Metadata) -> StoreOutcome<()>): (r: Result<Response, Fault>)
    ensures var m := ReceiveVolumeMetadata(values, parse);
      && (m.Failure? ==> r == Failure(ApiFault(m.error)))
      && (m.Success? ==> Serve(r).status == ExpectedStatus(UpdateVolumeRoute, KindOf(update(volumeId, m.value))))
      && (m.Success? && update(volumeId, m.value).Ok? ==> r == Success(SuccessResponse("volume successfully updated", 201)))
      && (m.Success? && update(volumeId, m.value).NotFound? ==>
            r == Failure(ApiFault(ApiError("volume not found", 404, None, Some(update(volumeId, m.value).reason)))))
      && (m.Success? && update(volumeId, m.value).ValueErr? ==>
            r == Failure(ApiFault(ApiError("malformed metadata", 400, None, Some(update(volumeId, m.value).reason)))))
  {
    var metadata :- ReceiveVolumeMetadata(values, parse).MapFailure(e => ApiFault(e));
    var _ :- Catch(update(volumeId, metadata), Some("volume not found"), Some("malformed metadata"));
    Success(SuccessResponse("volume successfully updated", 201))
  }

  /** GET /volumes/<volumeID> */
  function GetVolume(volumeId: string, get: string -> StoreOutcome<Json>): (r: Result<Response, Fault>)
    ensures Serve(r).status == ExpectedStatus(GetVolumeRoute, KindOf(get(volumeId)))
    ensures r.Success? <==> get(volumeId).Ok?
    ensures r.Success? ==> r.value.body == DataBody(Document(get(volumeId).value)) && r.value.location.None?
    ensures get(volumeId).NotFound? ==>
      r == Failure(ApiFault(ApiError("volume not found", 404, None, Some(get(volumeId).reason))))
  {
    var volume :- Catch(get(volumeId), Some("volume not found"), None);
    Success(Response(200, DataBody(Document(volume)), None))
  }

  /** DELETE /volumes/<volumeID> */
  function DeleteVolume(volumeId: string, delete: string -> StoreOutcome<()>): (r: Result<Response, Fault>)
    ensures Serve(r).status == ExpectedStatus(DeleteVolumeRoute, KindOf(delete(volumeId)))
    ensures r.Success? <==> delete(volumeId).Ok?
    ensures r.Success? ==> r.value == SuccessResponse("volume has been successfully deleted", 200)
    ensures delete(volumeId).NotFound? ==>
      r == Failure(ApiFault(ApiError("volume not found", 404, None, Some(delete(volumeId).reason))))
  {
    var _ :- Catch(delete(volumeId), Some("volume not found"), None);
    Success(SuccessResponse("volume has been successfully deleted", 200))
  }

  /** GET /volumes/<volumeID>/attachments/: the `attachments` member of the
      volume; a volume document without one is an uncaught lookup error. */
  function GetAttachments(volumeId: string, get: string -> StoreOutcome<Json>): (r: Result<Response, Fault>)
    ensures var o := get(volumeId);
      && (!o.Ok? ==> Serve(r).status == ExpectedStatus(GetAttachmentsRoute, KindOf(o)))
      && (r.Success? <==> o.Ok? && o.value.JObject? && "attachments" in o.value.fields)
      && (r.Success? ==> r.value.status == 200 && r.value.body == DataBody(Document(o.value.fields["attachments"])))
      && (o.Ok? && r.Failure? ==> Serve(r).status == 500)
      && (r.Success? ==> r.value.location.None?)
      && (o.NotFound? ==> r == Failure(ApiFault(ApiError("volume not found", 404, None, Some(o.reason)))))
  {
    var volume :- Catch(get(volumeId), Some("volume not found"), None);
    if volume.JObject? && "attachments" in volume.fields then
      Success(Response(200, DataBody(Document(volume.fields["attachments"])), None))
    else
      Failure(InternalFault)
  }

  /** GET /volumes/<volumeID>/attachments/<attachmentID> */
  function GetAttachment(volumeId: string, attachmentId: string, get: (string, string) -> StoreOutcome<Json>): (r: Result<Response, Fault>)
    ensures Serve(r).status == ExpectedStatus(GetAttachmentRoute, KindOf(get(volumeId, attachmentId)))
    ensures r.Success? <==> get(volumeId, attachmentId).Ok?
    ensures r.Success? ==> r.value.body == DataBody(Document(get(volumeId, attachmentId).value)) && r.value.location.None?
    ensures get(volumeId, attachmentId).NotFound? ==>
      Serve(r).body == ErrorBody(404, "attachment not found", get(volumeId, attachmentId).reason)
  {
    var att :- Catch(get(volumeId, attachmentId), Some("attachment not found"), None);
    Success(Response(200, DataBody(Document(att)), None))
  }

  /** DELETE /volumes/<volumeID>/attachments/<attachmentID>: the backend is
      asked to delete the one-element list of the attachment id. */
  function DeleteAttachment(volumeId: string, attachmentId: string, delete: (string, seq<string>) -> StoreOutcome<()>): (r: Result<Response, Fault>)
    ensures Serve(r).status == ExpectedStatus(DeleteAttachmentRoute, KindOf(delete(volumeId, [attachmentId])))
    ensures r.Success? <==> delete(volumeId, [attachmentId]).Ok?
    ensures r.Success? ==> r.value == SuccessResponse("attachment has been successfully deleted", 200)
    ensures delete(volumeId, [attachmentId]).NotFound? ==>
      r == Failure(ApiFault(ApiError("attachment not found", 404, None, Some(delete(volumeId, [attachmentId]).reason))))
  {
    var _ :- Catch(delete(volumeId, [attachmentId]), Some("attachment not found"), None);
    Success(SuccessResponse("attachment has been successfully deleted", 200))
  }

  /** PUT /volumes/<volumeID>/attachments/<attachmentID>: required metadata,
      no required field; only a `ValueError` of the backend is caught. */
  function UpdateAttachment(volumeId: string, attachmentId: string, values: map<string, string>, parse: string -> ParseResult,
                            update: (string, string, Metadata) -> StoreOutcome<()>): (r: Result<Response, Fault>)
    ensures var m := ReceiveMetadata(values, false, parse);
      && (m.Failure? ==> r == Failure(ApiFault(m.error)))
      && (m.Success? ==> Serve(r).status == ExpectedStatus(UpdateAttachmentRoute, KindOf(update(volumeId, attachmentId, m.value))))
      && (m.Success? && update(volumeId, attachmentId, m.value).NotFound? ==> Serve(r).body == ErrorBody(500, "internal server error", ""))
      && (m.Success? && update(volumeId, attachmentId, m.value).Ok? ==>
            r == Success(SuccessResponse("attachment has been successfully updated", 200)))
      && (m.Success? && update(volumeId, attachmentId, m.value).ValueErr? ==>
            r == Failure(ApiFault(ApiError("malformed request", 400, None, Some(update(volumeId, attachmentId, m.value).reason)))))
  {
    var metadata :- ReceiveMetadata(values, false, parse).MapFailure(e => ApiFault(e));
    var _ :- Catch(update(volumeId, attachmentId, metadata), None, Some("malformed request"));
    Success(SuccessResponse("attachment has been successfully updated", 200))
  }

  /** GET /volumes/<volumeID>/attachments/<attachmentID>/file: the response
      built by the file-sending helper is returned unchanged. */
  function GetFile(volumeId: string, attachmentId: string, send: (string, string) -> StoreOutcome<Response>): (r: Result<Response, Fault>)
    ensures var o := send(volumeId, attachmentId);
      && (o.Ok? ==> r == Success(o.value))
      && (!o.Ok? ==> Serve(r).status == ExpectedStatus(GetFileRoute, KindOf(o)))
      && (o.NotFound? ==> Serve(r).body == ErrorBody(404, "file not found", o.reason))
  {
    Catch(send(volumeId, attachmentId), Some("file not found"), None)
  }

  /** POST /volumes/<volumeID>/attachments/: once the request is accepted and
      the upload saved, the status follows the table, except that a backend
      answer without any attachment id fails with 500. */
  lemma AddAttachmentsStatus(
    volumeId: string, values: map<string, string>, files: map<string, Upload>,
    parse: string -> ParseResult, secure: string -> string,
    tmp: TempPath, fs: FsState,
    insert: (string, seq<FileInfo>) -> StoreOutcome<seq<string>>)
    requires tmp !in fs.live
    requires Validated(values, files, parse)
    ensures var info := Info(tmp, files[FileKey], ReceiveMetadata(values, true, parse).value, secure);
      var o := insert(volumeId, [info]);
      var resp := Serve(AddAttachments(volumeId, values, files, parse, secure, tmp, true, fs, insert).result);
      resp.status == if o.Ok? && |o.value| == 0 then 500 else ExpectedStatus(AddAttachmentsRoute, KindOf(o))
  {
  }
}

=== FILE: storage.dfy ===
/** The storage backend seen from the HTTP layer. Its operations are not part
    of this model: every call is represented only by its outcome. */
module Storage {
  import opened Wrappers
  import opened Responses

  /** The outcome of one call into the backend: a value, a
      `NotFoundException`, a `ValueError`, or any other exception. */
  datatype StoreOutcome<+T> = Ok(value: T) | NotFound(reason: string) | ValueErr(reason: string) | OtherFault

  datatype OutcomeKind = KOk | KNotFound | KValueErr | KFault

  function KindOf<T>(o: StoreOutcome<T>): OutcomeKind
  {
    match o
    case Ok(_) => KOk
    case NotFound(_) => KNotFound
    case ValueErr(_) => KValueErr
    case OtherFault => KFault
  }

  /** A route's `try: ... except ...` around one backend call. `onNotFound`
      and `onValueErr` hold the message of the `ApiError` the route raises for
      that exception, or `None` when the route does not catch it; a caught
      exception's text becomes the error's details. */
  function Catch<T>(o: StoreOutcome<T>, onNotFound: Option<string>, onValueErr: Option<string>): (r: Result<T, Fault>)
    ensures o.Ok? <==> r.Success?
    ensures o.Ok? ==> r.value == o.value
    ensures o.NotFound? && onNotFound.Some? ==> r == Failure(ApiFault(ApiError(onNotFound.value, 404, None, Some(o.reason))))
    ensures o.NotFound? && onNotFound.None? ==> r == Failure(NotFoundFault(o.reason))
    ensures o.ValueErr? && onValueErr.Some? ==> r == Failure(ApiFault(ApiError(onValueErr.value, 400, None, Some(o.reason))))
    ensures o.ValueErr? && onValueErr.None? ==> r == Failure(ValueFault(o.reason))
    ensures o.OtherFault? ==> r == Failure(InternalFault)
  {
    match o
    case Ok(v) => Success(v)
    case NotFound(reason) =>
      if onNotFound.Some? then Failure(ApiFault(ApiError(onNotFound.value, 404, None, Some(reason))))
      else Failure(NotFoundFault(reason))
    case ValueErr(reason) =>
      if onValueErr.Some? then Failure(ApiFault(ApiError(onValueErr.value, 400, None, Some(reason))))
      else Failure(ValueFault(reason))
    case OtherFault => Failure(InternalFault)
  }

  /** The status a client sees for a backend exception, by whether the route
      catches it: 404 or 400 when caught, 500 from the catch-all otherwise. */
  lemma CaughtStatus<T>(o: StoreOutcome<T>, onNotFound: Option<string>, onValueErr: Option<string>)
    requires !o.Ok?
    ensures Serve(Catch(o, onNotFound, onValueErr).PropagateFailure<Response>()).status ==
      if o.NotFound? && onNotFound.Some? then 404
      else if o.ValueErr? && onValueErr.Some? then 400
      else 500
  {
  }
}

=== FILE: tempfiles.dfy ===
/** The temporary files the API creates while receiving an upload. Paths are
    chosen by the operating system; the model keeps the set of paths that
    exist and a log of every removal. */
module TempFiles {

  type TempPath = nat

  datatype FsState = FsState(live: set<TempPath>, removed: seq<TempPath>)

  /** `tempfile.mkstemp()`: the new file exists afterwards. */
  function Create(fs: FsState, p: TempPath): (fs': FsState)
    requires p !in fs.live
    ensures fs'.live == fs.live + {p}
    ensures fs'.removed == fs.removed
  {
    FsState(fs.live + {p}, fs.removed)
  }

  /** `os.remove(p)` on an existing file: it no longer exists, and the removal
      is logged. */
  function Remove(fs: FsState, p: TempPath): (fs': FsState)
    requires p in fs.live
    ensures fs'.live == fs.live - {p}
    ensures fs'.removed == fs.removed + [p]
    ensures p !in fs'.live
  {
    FsState(fs.live - {p}, fs.removed + [p])
  }

  /** How many times `p` has been removed. */
  function Removals(fs: FsState, p: TempPath): nat
  {
    multiset(fs.removed)[p]
  }

  /** Creating a fresh file and removing it restores the set of files and
      removes that file exactly once more. */
  lemma CreateThenRemove(fs: FsState, p: TempPath)
    requires p !in fs.live
    ensures Remove(Create(fs, p), p).live == fs.live
    ensures Removals(Remove(Create(fs, p), p), p) == Removals(fs, p) + 1
    ensures forall o :: o != p ==> Removals(Remove(Create(fs, p), p), o) == Removals(fs, o)
  {
    var fs' := Remove(Create(fs, p), p);
    assert multiset(fs'.removed) == multiset(fs.removed) + multiset{p};
  }
}

=== FILE: wrappers.dfy ===
/** Failure-compatible result types shared by every module of the model. */
module Wrappers {

  datatype Option<+T> = None | Some(value: T) {

    /** `Some(v)` becomes `Success(v)`, `None` the given error. */
    function ToResult<E>(error: E): (r: Result<T, E>)
      ensures Some? <==> r.Success?
      ensures Some? ==> r.value == value
      ensures None? ==> r.error == error
    {
      match this
      case Some(v) => Success(v)
      case None => Failure(error)
    }
  }

  /** Either a value or the error that stopped the computation; usable with `:-`. */
  datatype Result<+R, +E> = Success(value: R) | Failure(error: E) {

    predicate IsFailure() {
      Failure?
    }

    function PropagateFailure<U>(): Result<U, E>
      requires Failure?
    {
      Failure(error)
    }

    function Extract(): R
      requires Success?
    {
      value
    }

    /** Keeps a value, converts an error. */
    function MapFailure<NewE>(convert: E -> NewE): (r: Result<R, NewE>)
      ensures Success? <==> r.Success?
      ensures Success? ==> r.value == value
      ensures Failure? ==> r.error == convert(error)
    {
      match this
      case Success(v) => Success(v)
      case Failure(e) => Failure(convert(e))
    }
  }
}
